=== FILE: README.md ===
# Mini-program login sessions: a Dafny model

This project models the session core of a mini-program backend SDK. A login turns a
one-time `x-wx-code` and the tenant app id taken from the `referer` header into a session
key from the identity provider. It derives the session token `skey = sha1(session_key)`
and upserts the user's row, keyed by `open_id`. Later requests present `x-wx-skey`:
`validation` looks the row up and applies the expiry rule, and `authInfoMiddleware`
identifies the user when a token is present.

Everything is pure. The `user` table is a sequence of rows. Time is an integer count of
milliseconds, passed in as `now`. `sha1` and the two provider calls are function
parameters. Request headers are a map from lower-case name to value, and an absent key
plays the role of `undefined`.

Modules:

- `Wrappers`: `Option` and `Result`.
- `Errors`: the error values the code throws.
- `UserTable`: rows and the three statements issued against the table (count, update,
  select).
- `AuthDbService`: `saveUserInfo` and `getUserInfoBySKey`.
- `Referer`: the regular expression that finds the tenant app id.
- `Auth`: `authorization`, provider-reply acceptance, `validation` and
  `authInfoMiddleware`.
- `Sessions`: what the request checks see after a save.

Notes on how the code behaves, which the model keeps:

- **Referer errors.** `authorization` calls `referer.match` and indexes its result at
  lib/auth/index.js:26-27, before the header check at :28. So a missing referer, or one
  the pattern does not match, throws a JavaScript TypeError (`Error.TypeFault`). The check
  for a falsy referer at :28 can never fire, and only a falsy code reaches
  `ERR_HEADER_MISSED` at :30.
- **Expired versus unknown tokens.** An expired session resolves to a `FAILED` login state
  (lib/auth/index.js:74). A falsy token throws `ERR_SKEY_INVALID` at :60, and an unknown
  one does so at :66.
- **Validation is read-only.** Nothing in `validation` (lib/auth/index.js:58-91) writes to
  the store. `Validation` therefore takes the table and returns no table.
- **Direct-path errcode.** `res.errcode` is tested for truthiness at
  lib/auth/index.js:177, so an `errcode` of 0 is accepted.
- **The `.` in the pattern.** The unescaped `.` in the pattern at lib/auth/index.js:25
  matches any one UTF-16 code unit except the JavaScript line terminators (`\n`, `\r`,
  U+2028, U+2029). The pattern has no `u` flag. A character outside the Basic Multilingual
  Plane is therefore two code units, and no single `.` matches it. The model's `char` is a
  Unicode scalar value, so `Referer.MatchesAt` accepts a separator only below U+10000.

## Model

| member | source | states |
|---|---|---|
| `UserTable.CountOpenIdPositive` | lib/mysql/AuthDbService.js:18-23 | the count of rows with an `open_id` is truthy exactly when some row has that `open_id` |
| `UserTable.UpdateByOpenId` | lib/mysql/AuthDbService.js:24-28 | the update keeps the row count; each row with the key takes the SET clause and keeps its other columns; every other row is unchanged |
| `UserTable.SelectBySkey` | lib/mysql/AuthDbService.js:52-54 | the select returns only rows of the table whose `skey` equals the argument, and every such row |
| `UserTable.SelectFirstIsEarliest` | lib/auth/index.js:64-67 | the row `validation` takes as `result[0]` is the earliest row of the table with that `skey` |
| `AuthDbService.SaveUserInfo` | lib/mysql/AuthDbService.js:12-43 | a store failure yields `ERR_WHEN_INSERT_TO_DB` and an unchanged table; a success resolves to `{userinfo, skey}` echoing the arguments; a known `open_id` has every one of its rows refreshed with the new skey, session key, visit time and user info (its `open_id`, `uid` and `aid` kept), other rows unchanged and nothing inserted; an unknown `open_id` gets exactly one appended row |
| `AuthDbService.GetUserInfoBySKey` | lib/mysql/AuthDbService.js:49-55 | a falsy skey throws `ERR_NO_SKEY_ON_CALL_GETUSERINFOFUNCTION`, and only a falsy one; every non-empty skey succeeds, returning exactly the rows with that skey |
| `AuthDbService.SaveKeepsOpenIdUnique` | lib/mysql/AuthDbService.js:18-33 | one save leaves an `open_id` with at most one row: exactly one if it had one or was the key saved successfully, none otherwise |
| `AuthDbService.RepeatedSavesKeepOneRow` | lib/mysql/AuthDbService.js:18-33 | any sequence of saves run one after another never gives an `open_id` a second row, and leaves exactly one when some save of it succeeded |
| `AuthDbService.SaveThenLookup` | lib/mysql/AuthDbService.js:24-54 | round trip: after a successful save under skey k, `getUserInfoBySKey(k)` returns every row of that user, each carrying the new session key, visit time and user info |
| `AuthDbService.SavedRowsCarrySkey` | lib/mysql/AuthDbService.js:24-32 | after a successful save every row of the saved user carries the new skey, whether it was updated or inserted (a corollary of `SaveUserInfo`'s contract, kept as documentation) |
| `AuthDbService.SaveRevokesOtherSkeys` | lib/mysql/AuthDbService.js:24-54 | after a save, looking up any other non-empty skey returns none of the saved user's rows |
| `Referer.AlnumRun` | lib/auth/index.js:25 | the greedy `[A-Za-z0-9]+` run is all alphanumeric and maximal: it ends at the string's end or at a non-alphanumeric character |
| `Referer.FindMatch` | lib/auth/index.js:25-26 | the search returns the leftmost position where the pattern matches, or reports that there is no such position |
| `Referer.TenantAppId` | lib/auth/index.js:25-27 | `match` is null exactly when the pattern matches nowhere; otherwise the capture is the non-empty, maximal alphanumeric run that follows `servicewechat`, one code unit that is not a line terminator, and `com/` at the leftmost match |
| `Referer.DeployedRefererYieldsAppId` | lib/auth/index.js:25-27 | a referer `https://servicewechat.com/<id>` followed by a non-alphanumeric character or by nothing yields exactly `<id>` |
| `Referer.AnySeparatorMatches` | lib/auth/index.js:25 | for every separator that is a single UTF-16 code unit and not a line terminator, `servicewechat`, that character, `com/`, then an alphanumeric id ended by a non-alphanumeric character or by nothing, yields exactly the id |
| `Referer.RefusedSeparatorDoesNotMatch` | lib/auth/index.js:25 | for every line terminator, and every character outside the Basic Multilingual Plane, in the separator position, followed by `com/` and an alphanumeric id, the pattern matches nowhere and `match` is null |
| `Auth.AuthorizationRequest` | lib/auth/index.js:19-31 | a missing or non-matching referer throws a TypeError whatever the code is; a matching referer with a falsy code throws `ERR_HEADER_MISSED`; it succeeds exactly when the referer matches and the code is truthy, passing on that code and the captured app id |
| `Auth.AcceptDirect` | lib/auth/index.js:175-184 | the direct reply is rejected with `ERR_GET_SESSION_KEY` exactly when `errcode` is truthy or `openid` or `session_key` is falsy; an accepted reply hands on both fields unchanged |
| `Auth.AcceptProxy` | lib/auth/index.js:146-154 | the proxy reply is rejected exactly when `code !== 0` or a field is missing; status 0 without `data` is a TypeError, and every other rejection is `ERR_GET_SESSION_KEY`; an accepted reply hands on both fields |
| `Auth.GetSessionKey` | lib/auth/index.js:141-187 | `useQcloudLogin` picks the path; the exchange fails exactly when that path's reply is rejected, with `ERR_GET_SESSION_KEY`, or with a TypeError exactly when the proxy path gets status 0 without `data`; an accepted exchange resolves to that reply's own `openid` and `session_key`, both non-empty |
| `Auth.GetSessionKeyArguments` | lib/auth/index.js:144-170 | the proxy is given the code alone, so the app id never changes its outcome; `jscode2session` is given the code and the app id, so providers that answer that pair alike yield the same session |
| `Auth.IssueSession` | lib/auth/index.js:35-39 | the login fails exactly when the configured provider's reply is rejected (proxy or direct path), and then with the exchange's own error; on success the issued session carries the request's app id, the reply's non-empty `openid` and `session_key`, and `skey = sha1(session_key)` |
| `Auth.Authorization` | lib/auth/index.js:19-39 | header failures are returned unchanged and end the login; passing headers lead to the exchange for the request's code and app id; a success carries the app id captured from the referer and `skey = sha1(session_key)` |
| `Auth.AuthorizationRejectsBeforeExchange` | lib/auth/index.js:26-35 | a request failing the header checks fails identically under every provider, so no exchange is attempted; it is `ERR_HEADER_MISSED` exactly when the referer matched |
| `Auth.SkeyDeterministic` | lib/auth/index.js:37-39 | two logins that obtain the same session key issue the same skey (a corollary of `IssueSession`'s `skey = sha1(session_key)`, kept as documentation) |
| `Auth.ProxyAndDirectAcceptance` | lib/auth/index.js:146-184 | both paths agree on a complete status-0 reply; a non-zero status is rejected on both; a missing status is rejected by the proxy, while a zero `errcode` is accepted by the direct path |
| `Auth.Validation` | lib/auth/index.js:58-91 | a falsy `x-wx-skey`, or one no row carries, throws `ERR_SKEY_INVALID`, and no other error is possible; otherwise the result is the expiry verdict on the earliest row carrying it |
| `Auth.ValidationExpiryBoundary` | lib/auth/index.js:69-89 | a found session is `SUCCESS` with that row's user, `uid` and `aid` exactly when `now - lastVisit` is at most `n * 1000` ms (`n` set) or 7,200,000 ms (default), the boundary included; otherwise `FAILED` with an empty user and empty `uid`/`aid` |
| `Auth.ValidationMonotone` | lib/auth/index.js:70-72 | a session accepted at some instant is accepted, with the same result, at every earlier instant |
| `Auth.AuthInfo` | lib/auth/index.js:119-132 | with no skey it passes through; a present skey with no row throws `ERR_SKEY_INVALID`, and nothing else fails; otherwise it identifies the earliest row carrying the skey |
| `Auth.AuthInfoIgnoresExpiry` | lib/auth/index.js:122-128 | for a present skey the optional identify fails exactly when `validation` fails; it identifies the same row `validation` accepts, and it also identifies a user whose session `validation` reports expired |
| `Sessions.SaveKeepsSkeyOnlyFor` | lib/mysql/AuthDbService.js:24-32 | a save keeps the saved skey off every other user's rows if it was off them before |
| `Sessions.SaveThenValidate` | lib/auth/index.js:64-89 | after saving a session under skey k that no other user holds, validation with k succeeds exactly until the lifetime has run out from the save, and names the saved user with the stored session |
| `Sessions.SaveThenIdentify` | lib/auth/index.js:125-128 | after such a save the optional identify with k finds the saved user with the stored session and visit time, at any time |
| `Sessions.SaveShutsOutOldSkey` | lib/mysql/AuthDbService.js:24-28 | after a save, presenting any other skey never validates as the saved user |

## Left out

- HTTP and network calls are parameters. This covers the `jscode2session` request, the
  hosted login proxy and the per-call Redis client that reads the component access token.
  Their transport failures, which propagate unchanged, are not modelled. Only the
  acceptance test on their replies is modelled.
- Key comparison is modelled as exact string equality, as under a binary collation. The
  schema of the `user` table is not part of this model. Under MySQL's default
  case-insensitive `_ci` collations with PAD SPACE, `WHERE open_id = ?` and
  `WHERE skey = ?` (lib/mysql/AuthDbService.js:18-28, :52-54) also match keys that differ
  in letter case or trailing spaces. `UserTable.SelectBySkey`, `UserTable.UpdateByOpenId`
  and `UserTable.CountOpenId` compare exactly.
- SaveRevokesOtherSkeys: holds only for exact key comparison. Under a case-insensitive
  collation, the upper-case form of the saved skey still finds the saved row.
- SaveShutsOutOldSkey: holds only for exact key comparison, for the same reason.
- RepeatedSavesKeepOneRow: counts `open_id`s that differ only in letter case as distinct
  keys. A case-insensitive collation would have them share rows in the upsert.
- SQL and knex mechanics are not modelled; the table is a sequence of rows. Read failures
  during `getUserInfoBySKey` would propagate unchanged and are not modelled. Rows come back
  in table order, while SQL gives no order guarantee without `ORDER BY`.
- The count-then-insert race between concurrent logins is out of scope because it is
  concurrency. Saves are modelled one after another.
- `sha1` is an opaque function parameter. Its collision resistance is not assumed. Lemmas
  that need a token to belong to one user say so in their preconditions.
- `moment` date formatting and parsing are not modelled. `last_visit_time` is stored as
  integer milliseconds, not as second-precision text. `Date.now()` is the parameter `now`.
  The code stores `YYYY-MM-DD HH:mm:ss` (lib/mysql/AuthDbService.js:13), which drops the
  milliseconds. So a session saved partway through a second expires up to 999 ms before
  `savedAt + ttl`, earlier than `Sessions.SaveThenValidate` states.
- Tenant ownership and visit counters are not modelled, because neither appears in the
  modelled files.
- `parseInt` and `isNaN` are not modelled. The expiry setting is an `Option<int>` that is
  `Some(n)` exactly when the configured value is truthy and parses to `n`.
- `JSON.stringify(userInfo)` is not modelled; the `user_info` column holds the user
  object itself. Every field of that object except `openId` is opaque.
- Database-generated columns are not modelled. The `uid` and `aid` of an inserted row are
  supplied as a parameter.
- The Koa wrappers `authorizationMiddleware` and `validationMiddleware` are not modelled;
  they only copy a result into `ctx.state`. So are the `next()` continuations of
  `authInfoMiddleware`.
- The end-to-end result of `authorization` is not modelled. The code calls
  `saveUserInfo(openid, skey, session_key, thirdAppId)`, which does not match the
  function's `(userInfo, skey, session_key)` signature. It then indexes the reply as
  `userinfo[0].uid`, which the `{userinfo, skey}` reply does not have. The model stops
  `Authorization` at the issued skey and models the save separately.
- AuthorizationRequest: its failures are synchronous throws from `authorization`
  (lib/auth/index.js:26-30). A caller's promise `.catch` never sees them. The model's
  `Result` does not tell them apart from the rejected promise of a failed exchange
  (:148-150, :177-179).
- Validation: a falsy skey is a synchronous throw (lib/auth/index.js:60), while an unknown
  skey rejects the returned promise (:66). Both are `Failure(ErrSkeyInvalid)` in the model.
  Likewise `AuthInfo`'s unknown skey (:126) and a failed `SaveUserInfo`
  (lib/mysql/AuthDbService.js:39-42) are promise rejections.
- The error message texts are not modelled. lib/constants.js is not part of this model.

=== FILE: auth.dfy ===
/**
 * The request-time half of the login plumbing: `authorization` (referer and
 * code headers, the session-key exchange and the derived `skey`),
 * `validation` (lookup and expiry), `authInfoMiddleware` (optional identify),
 * and the acceptance test `getSessionKey` applies to the provider's reply.
 *
 * The provider calls, the digest and the clock are parameters.
 */
module Auth {
  import opened Wrappers
  import opened Errors
  import opened UserTable
  import opened Referer
  import opened AuthDbService

  /** Request headers, by lower-case name; an absent key is `undefined`. */
  type Headers = map<string, string>

  const CodeHeader: string := "x-wx-code"
  const RefererHeader: string := "referer"
  const SkeyHeader: string := "x-wx-skey"

  /** Session lifetime, in seconds, when no usable setting is configured. */
  const DefaultExpiresSeconds: int := 7200

  function Header(h: Headers, name: string): Option<string> {
    if name in h then Some(h[name]) else None
  }

  /** JavaScript truthiness of a header value: present and not the empty string. */
  predicate Truthy(v: Option<string>) {
    v.Some? && v.value != ""
  }

  // ----- authorization -----

  /** What the header checks hand on to the session-key exchange. */
  datatype LoginRequest = LoginRequest(code: string, appId: string)

  /**
   * The header half of `authorization`. The referer is matched before any
   * header is checked, so a missing referer (reading `match` of undefined) or
   * one without a match (indexing the null result) throws a TypeError; the
   * later check for a falsy referer can then never fire, and only a falsy code
   * yields ERR_HEADER_MISSED.
   */
  function AuthorizationRequest(h: Headers): (r: Result<LoginRequest, Error>)
    ensures r == Failure(TypeFault) <==>
      !(RefererHeader in h) || forall i :: !MatchesAt(h[RefererHeader], i)
    ensures r == Failure(ErrHeaderMissed) <==>
      && RefererHeader in h
      && (exists i :: MatchesAt(h[RefererHeader], i))
      && !Truthy(Header(h, CodeHeader))
    ensures r.Success? <==>
      && RefererHeader in h
      && (exists i :: MatchesAt(h[RefererHeader], i))
      && Truthy(Header(h, CodeHeader))
    ensures r.Success? ==>
      && CodeHeader in h && r.value.code == h[CodeHeader] && r.value.code != ""
      && RefererHeader in h && TenantAppId(h[RefererHeader]) == Some(r.value.appId)
  {
    var referer := Header(h, RefererHeader);
    if referer.None? then Failure(TypeFault)
    else match TenantAppId(referer.value)
      case None => Failure(TypeFault)
      case Some(appId) =>
        var code := Header(h, CodeHeader);
        if !Truthy(code) || !Truthy(referer) then Failure(ErrHeaderMissed)
        else Success(LoginRequest(code.value, appId))
  }

  /** The `openid` and `session_key` fields of a provider reply, each possibly absent. */
  datatype SessionFields = SessionFields(openid: Option<string>, sessionKey: Option<string>)

  /** A `jscode2session` reply; `errcode` is absent on success. */
  datatype DirectReply = DirectReply(errcode: Option<int>, fields: SessionFields)

  /** A reply of the hosted login proxy: a status `code` and a `data` object. */
  datatype ProxyReply = ProxyReply(code: Option<int>, data: Option<SessionFields>)

  /** What an accepted reply contributes to the login. */
  datatype SessionPackage = SessionPackage(openId: string, sessionKey: string)

  /** JavaScript truthiness of a number: present and not zero. */
  predicate TruthyInt(v: Option<int>) {
    v.Some? && v.value != 0
  }

  /** Both fields a login needs are present and non-empty. */
  predicate Complete(f: SessionFields) {
    Truthy(f.openid) && Truthy(f.sessionKey)
  }

  /** The direct path rejects a reply with a truthy `errcode` or an incomplete body. */
  function AcceptDirect(reply: DirectReply): (r: Result<SessionPackage, Error>)
    ensures r.Failure? <==> TruthyInt(reply.errcode) || !Complete(reply.fields)
    ensures r.Failure? ==> r.error == ErrGetSessionKey
    ensures r.Success? ==>
      && reply.fields.openid == Some(r.value.openId) && r.value.openId != ""
      && reply.fields.sessionKey == Some(r.value.sessionKey) && r.value.sessionKey != ""
  {
    if TruthyInt(reply.errcode) || !Truthy(reply.fields.openid) || !Truthy(reply.fields.sessionKey) then
      Failure(ErrGetSessionKey)
    else
      Success(SessionPackage(reply.fields.openid.value, reply.fields.sessionKey.value))
  }

  /**
   * The proxy path rejects unless `code` is exactly 0 and both fields are
   * present; a status of 0 without a `data` object throws a TypeError.
   */
  function AcceptProxy(reply: ProxyReply): (r: Result<SessionPackage, Error>)
    ensures r.Failure? <==> reply.code != Some(0) || reply.data.None? || !Complete(reply.data.value)
    ensures r == Failure(TypeFault) <==> reply.code == Some(0) && reply.data.None?
    ensures r.Failure? && r != Failure(TypeFault) ==> r.error == ErrGetSessionKey
    ensures r.Success? ==>
      && reply.data.value.openid == Some(r.value.openId) && r.value.openId != ""
      && reply.data.value.sessionKey == Some(r.value.sessionKey) && r.value.sessionKey != ""
  {
    if reply.code != Some(0) then Failure(ErrGetSessionKey)
    else if reply.data.None? then Failure(TypeFault)
    else if !Truthy(reply.data.value.openid) || !Truthy(reply.data.value.sessionKey) then Failure(ErrGetSessionKey)
    else Success(SessionPackage(reply.data.value.openid.value, reply.data.value.sessionKey.value))
  }

  /**
   * The identity provider as configured: `useQcloudLogin` picks the proxy,
   * which is given the code alone; otherwise `jscode2session` is given the
   * code and the tenant app id.
   */
  datatype Provider = Provider(
    useQcloudLogin: bool,
    jscode2session: (string, string) -> DirectReply,
    proxyLogin: string -> ProxyReply)

  /**
   * getSessionKey(code, thirdAppId): one exchange on the configured path,
   * then that path's acceptance test.
   */
  function GetSessionKey(p: Provider, code: string, appId: string): (r: Result<SessionPackage, Error>)
    ensures p.useQcloudLogin ==> (r.Failure? <==> AcceptProxy(p.proxyLogin(code)).Failure?)
    ensures !p.useQcloudLogin ==> (r.Failure? <==> AcceptDirect(p.jscode2session(code, appId)).Failure?)
    ensures r.Failure? ==> r.error == ErrGetSessionKey || (p.useQcloudLogin && r.error == TypeFault)
    ensures r.Failure? && p.useQcloudLogin ==>
      (r.error == TypeFault <==> p.proxyLogin(code).code == Some(0) && p.proxyLogin(code).data.None?)
    ensures r.Success? ==> r.value.openId != "" && r.value.sessionKey != ""
    // an accepted exchange resolves to the reply's own `openid` and `session_key`
    ensures r.Success? && p.useQcloudLogin ==>
      p.proxyLogin(code).data == Some(SessionFields(Some(r.value.openId), Some(r.value.sessionKey)))
    ensures r.Success? && !p.useQcloudLogin ==>
      p.jscode2session(code, appId).fields == SessionFields(Some(r.value.openId), Some(r.value.sessionKey))
  {
    if p.useQcloudLogin then AcceptProxy(p.proxyLogin(code))
    else AcceptDirect(p.jscode2session(code, appId))
  }

  /**
   * What each path is given: the proxy sees the code alone, so the tenant app
   * id cannot change its answer; `jscode2session` sees the code and the app
   * id, so two providers that answer that pair alike yield the same session.
   */
  lemma GetSessionKeyArguments(p: Provider, q: Provider, code: string, appId: string, otherAppId: string)
    ensures p.useQcloudLogin ==> GetSessionKey(p, code, appId) == GetSessionKey(p, code, otherAppId)
    ensures !p.useQcloudLogin && !q.useQcloudLogin && p.jscode2session(code, appId) == q.jscode2session(code, appId) ==>
      GetSessionKey(p, code, appId) == GetSessionKey(q, code, appId)
    ensures p.useQcloudLogin && q.useQcloudLogin && p.proxyLogin(code) == q.proxyLogin(code) ==>
      GetSessionKey(p, code, appId) == GetSessionKey(q, code, otherAppId)
  {
  }

  /** A session issued by a login, before it is stored. */
  datatype Issued = Issued(appId: string, openId: string, sessionKey: string, skey: string)

  /**
   * The exchange half of `authorization`: the configured provider is asked
   * once, its reply must pass the acceptance test, and the skey is the digest
   * of the session key it returned.
   */
  function IssueSession(req: LoginRequest, p: Provider, sha1: string -> string): (r: Result<Issued, Error>)
    ensures p.useQcloudLogin ==> (r.Failure? <==> AcceptProxy(p.proxyLogin(req.code)).Failure?)
    ensures !p.useQcloudLogin ==> (r.Failure? <==> AcceptDirect(p.jscode2session(req.code, req.appId)).Failure?)
    ensures r.Failure? ==> r.error == ErrGetSessionKey || r.error == TypeFault
    ensures r.Failure? ==> GetSessionKey(p, req.code, req.appId) == Failure(r.error)
    ensures r.Success? ==>
      && r.value.appId == req.appId
      && r.value.skey == sha1(r.value.sessionKey)
      && r.value.sessionKey != "" && r.value.openId != ""
      && GetSessionKey(p, req.code, req.appId) == Success(SessionPackage(r.value.openId, r.value.sessionKey))
  {
    var pkg :- GetSessionKey(p, req.code, req.appId);
    Success(Issued(req.appId, pkg.openId, pkg.sessionKey, sha1(pkg.sessionKey)))
  }

  /**
   * `authorization` up to the point where the session is stored: the header
   * checks, then the exchange.
   */
  function Authorization(h: Headers, p: Provider, sha1: string -> string): (r: Result<Issued, Error>)
    ensures AuthorizationRequest(h).Failure? ==> r == Failure(AuthorizationRequest(h).error)
    ensures AuthorizationRequest(h).Success? ==> r == IssueSession(AuthorizationRequest(h).value, p, sha1)
    ensures r.Success? ==>
      && RefererHeader in h && TenantAppId(h[RefererHeader]) == Some(r.value.appId)
      && r.value.skey == sha1(r.value.sessionKey)
  {
    var req :- AuthorizationRequest(h);
    IssueSession(req, p, sha1)
  }

  /**
   * A request that fails its header checks fails the same way whatever the
   * provider would have answered: no exchange is attempted.
   */
  lemma AuthorizationRejectsBeforeExchange(h: Headers, p1: Provider, p2: Provider, sha1: string -> string)
    requires !(RefererHeader in h) || !Truthy(Header(h, CodeHeader)) || forall i :: !MatchesAt(h[RefererHeader], i)
    ensures Authorization(h, p1, sha1) == Authorization(h, p2, sha1)
    ensures Authorization(h, p1, sha1).Failure?
    ensures Authorization(h, p1, sha1).error == ErrHeaderMissed <==>
      RefererHeader in h && exists i :: MatchesAt(h[RefererHeader], i)
  {
  }

  /** The same session key always yields the same skey, whatever the request. */
  lemma SkeyDeterministic(h1: Headers, p1: Provider, h2: Headers, p2: Provider, sha1: string -> string)
    ensures Authorization(h1, p1, sha1).Success? && Authorization(h2, p2, sha1).Success? &&
            Authorization(h1, p1, sha1).value.sessionKey == Authorization(h2, p2, sha1).value.sessionKey ==>
              Authorization(h1, p1, sha1).value.skey == Authorization(h2, p2, sha1).value.skey
  {
  }

  /**
   * The two acceptance tests agree on a complete status-0 reply, and differ on
   * the status: the proxy insists on `code` 0, while the direct path takes an
   * `errcode` of 0 as no error at all.
   */
  lemma ProxyAndDirectAcceptance(f: SessionFields, status: int)
    ensures AcceptProxy(ProxyReply(Some(0), Some(f))) == AcceptDirect(DirectReply(None, f))
    ensures AcceptDirect(DirectReply(Some(0), f)) == AcceptDirect(DirectReply(None, f))
    ensures status != 0 ==> AcceptProxy(ProxyReply(Some(status), Some(f))) == Failure(ErrGetSessionKey)
    ensures status != 0 ==> AcceptDirect(DirectReply(Some(status), f)) == Failure(ErrGetSessionKey)
    ensures AcceptProxy(ProxyReply(None, Some(f))) == Failure(ErrGetSessionKey)
  {
  }

  // ----- validation -----

  datatype LoginState = LoginSuccess | LoginFailed

  /** The `user` field of a login result: `{}` or a table row. */
  datatype UserField = NoUser | User(row: Row)

  datatype Principal = Principal(loginState: LoginState, user: UserField, uid: string, aid: string)

  /**
   * Session lifetime in milliseconds. `setting` is `Some(n)` exactly when the
   * configured `wxLoginExpires` is truthy and `parseInt` reads it as `n`.
   */
  function ExpiresMillis(setting: Option<int>): int {
    match setting
    case Some(n) => n * 1000
    case None => DefaultExpiresSeconds * 1000
  }

  predicate Expired(lastVisitTime: int, expires: int, now: int) {
    lastVisitTime + expires < now
  }

  /** The state `validation` resolves with for a found row at time `now`. */
  function Verdict(row: Row, setting: Option<int>, now: int): Principal {
    if Expired(row.lastVisitTime, ExpiresMillis(setting), now) then Principal(LoginFailed, NoUser, "", "")
    else Principal(LoginSuccess, User(row), row.uid, row.aid)
  }

  /**
   * validation(req) at time `now`. A falsy or unknown skey throws; a found
   * session resolves, as FAILED when it has expired.
   */
  function Validation(h: Headers, t: Table, now: int, setting: Option<int>): (r: Result<Principal, Error>)
    ensures !Truthy(Header(h, SkeyHeader)) ==> r == Failure(ErrSkeyInvalid)
    ensures Truthy(Header(h, SkeyHeader)) && (forall i :: 0 <= i < |t| ==> t[i].skey != h[SkeyHeader]) ==>
      r == Failure(ErrSkeyInvalid)
    ensures r.Failure? ==> r.error == ErrSkeyInvalid
    ensures forall i :: SkeyHeader in h && IsFirstWithSkey(t, h[SkeyHeader], i) && h[SkeyHeader] != "" ==>
      r == Success(Verdict(t[i], setting, now))
  {
    var skey := Header(h, SkeyHeader);
    if !Truthy(skey) then Failure(ErrSkeyInvalid)
    else
      match GetUserInfoBySKey(t, skey.value)
      case Failure(e) => Failure(e)
      case Success(rows) =>
        if |rows| == 0 then Failure(ErrSkeyInvalid)
        else
          SelectFirstIsEarliestAll(t, skey.value);
          Success(Verdict(rows[0], setting, now))
  }

  lemma SelectFirstIsEarliestAll(t: Table, skey: string)
    ensures forall i :: IsFirstWithSkey(t, skey, i) ==>
      |SelectBySkey(t, skey)| > 0 && SelectBySkey(t, skey)[0] == t[i]
  {
    forall i | IsFirstWithSkey(t, skey, i) {
      SelectFirstIsEarliest(t, skey, i);
    }
  }

  /**
   * The expiry boundary: a found session is accepted exactly while no more
   * than the configured lifetime (7,200,000 ms by default) has passed since
   * its last visit, the boundary instant included.
   */
  lemma ValidationExpiryBoundary(h: Headers, t: Table, now: int, setting: Option<int>, i: int)
    requires SkeyHeader in h && h[SkeyHeader] != "" && IsFirstWithSkey(t, h[SkeyHeader], i)
    ensures Validation(h, t, now, setting).Success?
    ensures Validation(h, t, now, setting).value.loginState == LoginSuccess <==>
      now - t[i].lastVisitTime <= (if setting.Some? then setting.value * 1000 else 7_200_000)
    ensures Validation(h, t, now, setting).value.loginState == LoginSuccess ==>
      Validation(h, t, now, setting).value == Principal(LoginSuccess, User(t[i]), t[i].uid, t[i].aid)
    ensures Validation(h, t, now, setting).value.loginState == LoginFailed ==>
      Validation(h, t, now, setting).value == Principal(LoginFailed, NoUser, "", "")
  {
  }

  /** A session valid at some instant was valid at every earlier instant. */
  lemma ValidationMonotone(h: Headers, t: Table, earlier: int, later: int, setting: Option<int>)
    ensures earlier <= later && Validation(h, t, later, setting).Success? &&
            Validation(h, t, later, setting).value.loginState == LoginSuccess ==>
              Validation(h, t, earlier, setting) == Validation(h, t, later, setting)
  {
  }

  /** The earliest row carrying `skey`, given that row `j` carries it. */
  function FirstIndex(t: Table, skey: string, j: int): (i: int)
    requires 0 <= j < |t| && t[j].skey == skey
    ensures IsFirstWithSkey(t, skey, i) && i <= j
  {
    if exists k :: 0 <= k < j && t[k].skey == skey then
      var k :| 0 <= k < j && t[k].skey == skey;
      FirstIndex(t, skey, k)
    else j
  }

  // ----- authInfoMiddleware -----

  /** What `authInfoMiddleware` leaves on the context: nothing, or `{user: row}`. */
  datatype Identity = Anonymous | Identified(user: Row)

  /**
   * authInfoMiddleware: without a skey it passes through without a lookup;
   * with one it must find a row, and it does not check expiry.
   */
  function AuthInfo(h: Headers, t: Table): (r: Result<Identity, Error>)
    ensures !Truthy(Header(h, SkeyHeader)) ==> r == Success(Anonymous)
    ensures r.Failure? <==>
      Truthy(Header(h, SkeyHeader)) && forall i :: 0 <= i < |t| ==> t[i].skey != h[SkeyHeader]
    ensures r.Failure? ==> r.error == ErrSkeyInvalid
    ensures forall i :: SkeyHeader in h && IsFirstWithSkey(t, h[SkeyHeader], i) && h[SkeyHeader] != "" ==>
      r == Success(Identified(t[i]))
  {
    var skey := Header(h, SkeyHeader);
    if !Truthy(skey) then Success(Anonymous)
    else
      match GetUserInfoBySKey(t, skey.value)
      case Failure(e) => Failure(e)
      case Success(rows) =>
        if |rows| == 0 then Failure(ErrSkeyInvalid)
        else
          SelectFirstIsEarliestAll(t, skey.value);
          Success(Identified(rows[0]))
  }

  /**
   * The optional identify agrees with `validation` on which skeys are known
   * and on the row, but ignores expiry: it identifies the user of a session
   * `validation` reports as expired.
   */
  lemma AuthInfoIgnoresExpiry(h: Headers, t: Table, now: int, setting: Option<int>)
    requires Truthy(Header(h, SkeyHeader))
    ensures AuthInfo(h, t).Failure? <==> Validation(h, t, now, setting).Failure?
    ensures AuthInfo(h, t).Success? ==>
      && AuthInfo(h, t).value.Identified?
      && Validation(h, t, now, setting).Success?
      && (Validation(h, t, now, setting).value.loginState == LoginSuccess ==>
            Validation(h, t, now, setting).value.user == User(AuthInfo(h, t).value.user))
      && (Validation(h, t, now, setting).value.loginState == LoginFailed ==>
            now - AuthInfo(h, t).value.user.lastVisitTime > ExpiresMillis(setting))
  {
  }
}

=== FILE: auth_db_service.dfy ===
/**
 * The two store operations of the login path: the upsert a login performs
 * (count by `open_id`, then update every such row or insert one), and the
 * lookup by session key.
 */
module AuthDbService {
  import opened Wrappers
  import opened Errors
  import opened UserTable

  /** Columns the insert does not supply; the database fills them in. */
  datatype GeneratedColumns = GeneratedColumns(uid: string, aid: string)

  /** What a successful save resolves to: its own arguments, echoed. */
  datatype SaveReply = SaveReply(userinfo: UserInfo, skey: string)

  /** The table after a save, and what the save resolved or rejected with. */
  datatype Saved = Saved(table: Table, reply: Result<SaveReply, Error>)

  /**
   * saveUserInfo(userInfo, skey, session_key) at time `now`. `storeFails`
   * says that the count or the write statement rejected; each is a single
   * statement, so a failed save leaves the table as it was.
   */
  function SaveUserInfo(t: Table, userInfo: UserInfo, skey: string, sessionKey: string, now: int,
                        generated: GeneratedColumns, storeFails: bool): (s: Saved)
    ensures storeFails ==> s == Saved(t, Failure(ErrWhenInsertToDb))
    ensures !storeFails ==> s.reply == Success(SaveReply(userInfo, skey))
    // a known open_id: every one of its rows takes the new session, nothing is inserted
    ensures !storeFails && HasOpenId(t, userInfo.openId) ==>
      && |s.table| == |t|
      && forall i :: 0 <= i < |t| ==>
           && s.table[i].openId == t[i].openId
           && s.table[i].uid == t[i].uid
           && s.table[i].aid == t[i].aid
           && (t[i].openId == userInfo.openId ==>
                 && s.table[i].skey == skey
                 && s.table[i].sessionKey == sessionKey
                 && s.table[i].lastVisitTime == now
                 && s.table[i].userInfo == userInfo)
           && (t[i].openId != userInfo.openId ==> s.table[i] == t[i])
    // a new open_id: exactly one row is appended
    ensures !storeFails && !HasOpenId(t, userInfo.openId) ==>
      s.table == t + [Row(userInfo.openId, skey, sessionKey, now, userInfo, generated.uid, generated.aid)]
  {
    var openId := userInfo.openId;
    if storeFails then Saved(t, Failure(ErrWhenInsertToDb))
    else
      var hasUser := CountOpenId(t, openId) > 0;
      CountOpenIdPositive(t, openId);
      var table :=
        if hasUser then UpdateByOpenId(t, openId, Changes(skey, now, sessionKey, userInfo))
        else t + [Row(openId, skey, sessionKey, now, userInfo, generated.uid, generated.aid)];
      Saved(table, Success(SaveReply(userInfo, skey)))
  }

  /**
   * getUserInfoBySKey(skey). The empty string stands for every falsy
   * argument, which the code rejects before querying.
   */
  function GetUserInfoBySKey(t: Table, skey: string): (r: Result<Table, Error>)
    ensures skey == "" <==> r == Failure(ErrNoSkeyOnCallGetUserInfoFunction)
    ensures r.Success? <==> skey != ""
    ensures r.Success? ==>
      && (forall i :: 0 <= i < |r.value| ==> r.value[i].skey == skey && r.value[i] in t)
      && (forall i :: 0 <= i < |t| && t[i].skey == skey ==> t[i] in r.value)
  {
    if skey == "" then Failure(ErrNoSkeyOnCallGetUserInfoFunction)
    else Success(SelectBySkey(t, skey))
  }

  /** One call of saveUserInfo, with the environment it runs in. */
  datatype SaveCall = SaveCall(userInfo: UserInfo, skey: string, sessionKey: string, now: int,
                               generated: GeneratedColumns, storeFails: bool)

  function Apply(t: Table, c: SaveCall): Table {
    SaveUserInfo(t, c.userInfo, c.skey, c.sessionKey, c.now, c.generated, c.storeFails).table
  }

  /** Saves run one after another, each on the table the previous one left. */
  function ApplyAll(t: Table, calls: seq<SaveCall>): Table
    decreases |calls|
  {
    if |calls| == 0 then t else ApplyAll(Apply(t, calls[0]), calls[1..])
  }

  /** Some call in `calls` is a save for `openId` that the store accepted. */
  predicate SavesOpenId(calls: seq<SaveCall>, openId: string) {
    exists j :: 0 <= j < |calls| && calls[j].userInfo.openId == openId && !calls[j].storeFails
  }

  /**
   * One save never creates a second row for any `open_id`: a key with at
   * most one row has exactly one afterwards when it is the key saved, and
   * keeps its count otherwise.
   */
  lemma SaveKeepsOpenIdUnique(t: Table, c: SaveCall, openId: string)
    requires CountOpenId(t, openId) <= 1
    ensures CountOpenId(Apply(t, c), openId) ==
      if CountOpenId(t, openId) == 1 || (c.userInfo.openId == openId && !c.storeFails) then 1 else 0
  {
    var u := Apply(t, c);
    var saved := c.userInfo.openId;
    CountOpenIdPositive(t, saved);
    if !c.storeFails {
      if HasOpenId(t, saved) {
        CountOpenIdSameKeys(t, u, openId);
        if saved == openId {
          assert CountOpenId(t, openId) == 1;
        }
      } else {
        CountOpenIdAppend(t, Row(saved, c.skey, c.sessionKey, c.now, c.userInfo, c.generated.uid, c.generated.aid), openId);
      }
    }
  }

  /**
   * Run sequentially, any number of saves leaves at most one row per
   * `open_id`: exactly one when the key had a row or some save of it
   * succeeded, none otherwise.
   */
  lemma {:induction false} RepeatedSavesKeepOneRow(t: Table, calls: seq<SaveCall>, openId: string)
    requires CountOpenId(t, openId) <= 1
    ensures CountOpenId(ApplyAll(t, calls), openId) ==
      if CountOpenId(t, openId) == 1 || SavesOpenId(calls, openId) then 1 else 0
    decreases |calls|
  {
    if |calls| > 0 {
      var c := calls[0];
      var rest := calls[1..];
      SaveKeepsOpenIdUnique(t, c, openId);
      RepeatedSavesKeepOneRow(Apply(t, c), rest, openId);
      if SavesOpenId(rest, openId) {
        var j :| 0 <= j < |rest| && rest[j].userInfo.openId == openId && !rest[j].storeFails;
        assert calls[j + 1] == rest[j];
      }
      if SavesOpenId(calls, openId) && !(c.userInfo.openId == openId && !c.storeFails) {
        var j :| 0 <= j < |calls| && calls[j].userInfo.openId == openId && !calls[j].storeFails;
        assert j > 0 && rest[j - 1] == calls[j];
      }
      if c.userInfo.openId == openId && !c.storeFails {
        assert SavesOpenId(calls, openId) by { assert calls[0] == c; }
      }
    }
  }

  /**
   * Round trip: after a successful save under a non-empty `skey`, looking up
   * that `skey` finds every row of the saved user, carrying the new session.
   */
  lemma SaveThenLookup(t: Table, userInfo: UserInfo, skey: string, sessionKey: string, now: int,
                       generated: GeneratedColumns)
    requires skey != ""
    ensures var u := SaveUserInfo(t, userInfo, skey, sessionKey, now, generated, false).table;
      && GetUserInfoBySKey(u, skey).Success?
      && HasOpenId(u, userInfo.openId)
      && forall i :: 0 <= i < |u| && u[i].openId == userInfo.openId ==>
           && u[i] in GetUserInfoBySKey(u, skey).value
           && u[i].sessionKey == sessionKey
           && u[i].lastVisitTime == now
           && u[i].userInfo == userInfo
  {
    var u := SaveUserInfo(t, userInfo, skey, sessionKey, now, generated, false).table;
    if !HasOpenId(t, userInfo.openId) {
      assert u[|t|].openId == userInfo.openId;
    } else {
      var i :| 0 <= i < |t| && t[i].openId == userInfo.openId;
      assert u[i].openId == userInfo.openId;
    }
  }

  /** After a successful save every row of the saved user carries the new skey. */
  lemma SavedRowsCarrySkey(t: Table, userInfo: UserInfo, skey: string, sessionKey: string, now: int,
                           generated: GeneratedColumns)
    ensures var u := SaveUserInfo(t, userInfo, skey, sessionKey, now, generated, false).table;
      forall i :: 0 <= i < |u| && u[i].openId == userInfo.openId ==> u[i].skey == skey
  {
  }

  /**
   * A save revokes the user's previous session keys: no other key finds any
   * of the saved user's rows any more.
   */
  lemma SaveRevokesOtherSkeys(t: Table, userInfo: UserInfo, skey: string, sessionKey: string, now: int,
                              generated: GeneratedColumns, oldSkey: string)
    requires oldSkey != "" && oldSkey != skey
    ensures var u := SaveUserInfo(t, userInfo, skey, sessionKey, now, generated, false).table;
      && GetUserInfoBySKey(u, oldSkey).Success?
      && forall i :: 0 <= i < |GetUserInfoBySKey(u, oldSkey).value| ==>
           GetUserInfoBySKey(u, oldSkey).value[i].openId != userInfo.openId
  {
  }
}

=== FILE: errors.dfy ===
/**
 * The error values the authentication core throws. The names follow the
 * identifiers the code reads from its constants module (lib/constants.js is
 * not part of this model, so the message texts are not modelled).
 */
module Errors {

  datatype Error =
    | ErrHeaderMissed                       // ERRORS.ERR_HEADER_MISSED
    | ErrSkeyInvalid                        // ERRORS.ERR_SKEY_INVALID
    | ErrGetSessionKey                      // ERRORS.ERR_GET_SESSION_KEY
    | ErrWhenInsertToDb                     // ERRORS.DBERR.ERR_WHEN_INSERT_TO_DB
    | ErrNoSkeyOnCallGetUserInfoFunction    // ERRORS.DBERR.ERR_NO_SKEY_ON_CALL_GETUSERINFOFUNCTION
    | TypeFault                             // a JavaScript TypeError: a property read on null or undefined
}

=== FILE: referer.dfy ===
/**
 * The tenant app id in a mini-program `referer` header: the capture group of
 * the leftmost match of the regular expression `servicewechat.com/([A-Za-z0-9]+)`.
 * The `.` is unescaped, so it matches any one UTF-16 code unit that is not a
 * line terminator (the pattern has no `u` flag, so a character outside the
 * Basic Multilingual Plane is two code units and no single `.`), and the
 * greedy `+` with nothing after it captures the whole alphanumeric run.
 */
module Referer {
  import opened Wrappers

  const Host: string := "servicewechat"
  const PathPrefix: string := "com/"

  /** Length of `servicewechat.com/`: the capture starts this far into a match. */
  const CaptureOffset: nat := 18

  predicate IsAlnum(c: char) {
    ('A' <= c <= 'Z') || ('a' <= c <= 'z') || ('0' <= c <= '9')
  }

  /** The characters a JavaScript `.` refuses without the `s` flag. */
  predicate IsLineTerminator(c: char) {
    c == '\n' || c == '\r' || c == '\U{2028}' || c == '\U{2029}'
  }

  /** A character JavaScript stores as a single UTF-16 code unit. */
  predicate IsCodeUnit(c: char) {
    (c as int) < 0x1_0000
  }

  /** The characters the pattern's `.` accepts: one code unit, not a line terminator. */
  predicate DotMatches(c: char) {
    IsCodeUnit(c) && !IsLineTerminator(c)
  }

  /** The pattern matches `s` starting at position `i`. */
  predicate MatchesAt(s: string, i: int) {
    && 0 <= i
    && i + CaptureOffset < |s|
    && s[i..i + 13] == Host
    && DotMatches(s[i + 13])
    && s[i + 14..i + CaptureOffset] == PathPrefix
    && IsAlnum(s[i + CaptureOffset])
  }

  /** Length of the alphanumeric run of `s` that starts at `j`. */
  function AlnumRun(s: string, j: nat): (n: nat)
    requires j <= |s|
    ensures j + n <= |s|
    ensures forall k :: j <= k < j + n ==> IsAlnum(s[k])
    ensures j + n == |s| || !IsAlnum(s[j + n])
    decreases |s| - j
  {
    if j < |s| && IsAlnum(s[j]) then 1 + AlnumRun(s, j + 1) else 0
  }

  /** The leftmost position at or after `from` where the pattern matches. */
  function FindMatch(s: string, from: nat): (r: Option<nat>)
    requires from <= |s|
    ensures r.Some? ==> from <= r.value && MatchesAt(s, r.value)
    ensures r.Some? ==> forall j :: from <= j < r.value ==> !MatchesAt(s, j)
    ensures r.None? ==> forall j :: from <= j ==> !MatchesAt(s, j)
    decreases |s| - from
  {
    if from == |s| then None
    else if MatchesAt(s, from) then Some(from)
    else FindMatch(s, from + 1)
  }

  /** `referer.match(patt)[1]`, or `None` where `match` returns null. */
  function TenantAppId(referer: string): (r: Option<string>)
    ensures r.None? <==> forall i :: !MatchesAt(referer, i)
    ensures r.Some? ==> forall i :: MatchesAt(referer, i) && (forall j :: 0 <= j < i ==> !MatchesAt(referer, j)) ==>
      && |r.value| > 0
      && i + CaptureOffset + |r.value| <= |referer|
      && referer[i + CaptureOffset..i + CaptureOffset + |r.value|] == r.value
      && (forall k :: 0 <= k < |r.value| ==> IsAlnum(r.value[k]))
      && (i + CaptureOffset + |r.value| == |referer| || !IsAlnum(referer[i + CaptureOffset + |r.value|]))
  {
    match FindMatch(referer, 0)
    case None => None
    case Some(i) =>
      var start := i + CaptureOffset;
      Some(referer[start..start + AlnumRun(referer, start)])
  }

  /** The platform's referer prefix: no match before the host, and one at it. */
  lemma DeployedPrefixMatchesAt8(s: string)
    requires |s| > 26 && s[..26] == "https://servicewechat.com/" && IsAlnum(s[26])
    ensures MatchesAt(s, 8)
    ensures forall j :: 0 <= j < 8 ==> !MatchesAt(s, j)
  {
    forall j | 0 <= j < 8
      ensures !MatchesAt(s, j)
    {
      assert s[j..j + 13][0] == s[j] == "https://"[j];
      assert s[j..j + 13][1] == s[j + 1] == "https://s"[j + 1];
    }
    forall k | 8 <= k < 26
      ensures s[k] == "https://servicewechat.com/"[k]
    {
      assert s[..26][k] == s[k];
    }
    assert s[8..21] == Host;
    assert s[21] == '.';
    assert s[22..26] == PathPrefix;
  }

  /**
   * The referer the platform sends, `https://servicewechat.com/<appid>/...`,
   * yields the app id.
   */
  lemma DeployedRefererYieldsAppId(appId: string, rest: string)
    requires |appId| > 0 && forall k :: 0 <= k < |appId| ==> IsAlnum(appId[k])
    requires rest == [] || !IsAlnum(rest[0])
    ensures TenantAppId("https://servicewechat.com/" + appId + rest) == Some(appId)
  {
    var s := "https://servicewechat.com/" + appId + rest;
    assert s[..26] == "https://servicewechat.com/";
    assert s[26] == appId[0];
    DeployedPrefixMatchesAt8(s);
    var r := TenantAppId(s);
    assert r.Some?;
    assert s[26..26 + |appId|] == appId;
  }

  /**
   * The unescaped `.` lets any single-code-unit separator through that is not
   * a line terminator, not only a dot.
   */
  lemma AnySeparatorMatches(c: char, appId: string, rest: string)
    requires DotMatches(c)
    requires |appId| > 0 && forall k :: 0 <= k < |appId| ==> IsAlnum(appId[k])
    requires rest == [] || !IsAlnum(rest[0])
    ensures TenantAppId(Host + [c] + PathPrefix + appId + rest) == Some(appId)
  {
    var s := Host + [c] + PathPrefix + appId + rest;
    assert s[0..13] == Host;
    assert s[14..18] == PathPrefix;
    assert s[18] == appId[0];
    assert MatchesAt(s, 0);
    assert s[18..18 + |appId|] == appId;
  }

  /**
   * A separator the `.` refuses, a line terminator or a character of two
   * code units, leaves no match at all.
   */
  lemma RefusedSeparatorDoesNotMatch(c: char, appId: string)
    requires !DotMatches(c)
    requires forall k :: 0 <= k < |appId| ==> IsAlnum(appId[k])
    ensures TenantAppId(Host + [c] + PathPrefix + appId) == None
  {
    var s := Host + [c] + PathPrefix + appId;
    assert s[13] == c;
    forall i | 0 < i
      ensures !MatchesAt(s, i)
    {
      if i + CaptureOffset < |s| {
        // the `/` of the pattern would fall inside the alphanumeric app id
        assert s[i + 14..i + CaptureOffset][3] == s[i + 17] == appId[i - 1];
      }
    }
  }
}

=== FILE: sessions.dfy ===
/**
 * The store and the request checks together: what `validation` and
 * `authInfoMiddleware` see after `saveUserInfo` has recorded a session.
 */
module Sessions {
  import opened Wrappers
  import opened UserTable
  import opened AuthDbService
  import opened Auth

  /** No row of a user other than `openId` carries `skey`. */
  predicate SkeyOnlyFor(t: Table, openId: string, skey: string) {
    forall i :: 0 <= i < |t| && t[i].openId != openId ==> t[i].skey != skey
  }

  /** A save keeps other users' rows, so it keeps `skey` theirs-free. */
  lemma SaveKeepsSkeyOnlyFor(t: Table, userInfo: UserInfo, skey: string, sessionKey: string, now: int,
                             generated: GeneratedColumns)
    requires SkeyOnlyFor(t, userInfo.openId, skey)
    ensures SkeyOnlyFor(SaveUserInfo(t, userInfo, skey, sessionKey, now, generated, false).table, userInfo.openId, skey)
  {
  }

  /**
   * Login then check: once a session is saved under `skey`, and no other user
   * holds that skey, `validation` presenting it accepts exactly until the
   * lifetime has run out from the save, and then names the saved user with
   * the session just stored.
   */
  lemma SaveThenValidate(t: Table, userInfo: UserInfo, skey: string, sessionKey: string, savedAt: int,
                         generated: GeneratedColumns, h: Headers, now: int, setting: Option<int>)
    requires skey != "" && SkeyHeader in h && h[SkeyHeader] == skey
    requires SkeyOnlyFor(t, userInfo.openId, skey)
    ensures var u := SaveUserInfo(t, userInfo, skey, sessionKey, savedAt, generated, false).table;
      var r := Validation(h, u, now, setting);
      && r.Success?
      && (r.value.loginState == LoginSuccess <==> now <= savedAt + ExpiresMillis(setting))
      && (r.value.loginState == LoginSuccess ==>
            && r.value.user.User?
            && r.value.user.row.openId == userInfo.openId
            && r.value.user.row.skey == skey
            && r.value.user.row.sessionKey == sessionKey
            && r.value.user.row.userInfo == userInfo)
  {
    var u := SaveUserInfo(t, userInfo, skey, sessionKey, savedAt, generated, false).table;
    SaveThenLookup(t, userInfo, skey, sessionKey, savedAt, generated);
    SaveKeepsSkeyOnlyFor(t, userInfo, skey, sessionKey, savedAt, generated);
    var j :| 0 <= j < |u| && u[j].openId == userInfo.openId;
    assert u[j] in GetUserInfoBySKey(u, skey).value;
    var i := FirstIndex(u, skey, j);
    assert u[i].openId == userInfo.openId;
    ValidationExpiryBoundary(h, u, now, setting, i);
  }

  /**
   * After a save, the optional identify presenting the new skey finds the
   * saved user at any later time, expired or not.
   */
  lemma SaveThenIdentify(t: Table, userInfo: UserInfo, skey: string, sessionKey: string, savedAt: int,
                         generated: GeneratedColumns, h: Headers)
    requires skey != "" && SkeyHeader in h && h[SkeyHeader] == skey
    requires SkeyOnlyFor(t, userInfo.openId, skey)
    ensures var u := SaveUserInfo(t, userInfo, skey, sessionKey, savedAt, generated, false).table;
      var r := AuthInfo(h, u);
      && r.Success? && r.value.Identified?
      && r.value.user.openId == userInfo.openId
      && r.value.user.sessionKey == sessionKey
      && r.value.user.lastVisitTime == savedAt
  {
    var u := SaveUserInfo(t, userInfo, skey, sessionKey, savedAt, generated, false).table;
    SaveThenLookup(t, userInfo, skey, sessionKey, savedAt, generated);
    SaveKeepsSkeyOnlyFor(t, userInfo, skey, sessionKey, savedAt, generated);
    var j :| 0 <= j < |u| && u[j].openId == userInfo.openId;
    assert u[j] in GetUserInfoBySKey(u, skey).value;
    var i := FirstIndex(u, skey, j);
    assert u[i].openId == userInfo.openId;
  }

  /**
   * A login with a new session key shuts out the old one: presenting the
   * user's previous skey no longer identifies that user.
   */
  lemma SaveShutsOutOldSkey(t: Table, userInfo: UserInfo, skey: string, sessionKey: string, savedAt: int,
                            generated: GeneratedColumns, h: Headers, now: int, setting: Option<int>)
    requires SkeyHeader in h && h[SkeyHeader] != skey
    ensures var u := SaveUserInfo(t, userInfo, skey, sessionKey, savedAt, generated, false).table;
      var r := Validation(h, u, now, setting);
      r.Success? && r.value.user.User? ==> r.value.user.row.openId != userInfo.openId
  {
  }
}

=== FILE: user_table.dfy ===
/**
 * The `user` table of the MySQL store as an ordered sequence of rows, with the
 * three statements the core issues against it: a count of the rows with a
 * given `open_id`, an UPDATE keyed by `open_id`, and a SELECT keyed by `skey`.
 */
module UserTable {

  /** The provider's user object; every field but `openId` is opaque here. */
  datatype UserInfo = UserInfo(openId: string, profile: string)

  /**
   * One row. `lastVisitTime` is a millisecond timestamp; `userInfo` stands for
   * the serialised user object stored in the `user_info` column.
   */
  datatype Row = Row(
    openId: string,
    skey: string,
    sessionKey: string,
    lastVisitTime: int,
    userInfo: UserInfo,
    uid: string,
    aid: string)

  type Table = seq<Row>

  /** The SET clause of the update issued on a repeat login. */
  datatype Changes = Changes(skey: string, lastVisitTime: int, sessionKey: string, userInfo: UserInfo)

  predicate HasOpenId(t: Table, openId: string) {
    exists i :: 0 <= i < |t| && t[i].openId == openId
  }

  /** `SELECT count(open_id) FROM user WHERE open_id = ?` */
  function CountOpenId(t: Table, openId: string): nat {
    if |t| == 0 then 0
    else (if t[0].openId == openId then 1 else 0) + CountOpenId(t[1..], openId)
  }

  lemma {:induction false} CountOpenIdPositive(t: Table, openId: string)
    ensures CountOpenId(t, openId) > 0 <==> HasOpenId(t, openId)
  {
    if |t| > 0 {
      CountOpenIdPositive(t[1..], openId);
      if HasOpenId(t, openId) && t[0].openId != openId {
        var i :| 0 <= i < |t| && t[i].openId == openId;
        assert t[1..][i - 1].openId == openId;
      }
      if HasOpenId(t[1..], openId) {
        var i :| 0 <= i < |t[1..]| && t[1..][i].openId == openId;
        assert t[i + 1].openId == openId;
      }
    }
  }

  lemma {:induction false} CountOpenIdAppend(t: Table, r: Row, openId: string)
    ensures CountOpenId(t + [r], openId) == CountOpenId(t, openId) + (if r.openId == openId then 1 else 0)
  {
    if |t| == 0 {
      assert t + [r] == [r];
    } else {
      assert (t + [r])[1..] == t[1..] + [r];
      CountOpenIdAppend(t[1..], r, openId);
    }
  }

  /** Two tables whose rows agree on `open_id`, position by position, count alike. */
  lemma {:induction false} CountOpenIdSameKeys(t: Table, u: Table, openId: string)
    requires |t| == |u|
    requires forall i :: 0 <= i < |t| ==> u[i].openId == t[i].openId
    ensures CountOpenId(u, openId) == CountOpenId(t, openId)
  {
    if |t| > 0 {
      CountOpenIdSameKeys(t[1..], u[1..], openId);
    }
  }

  /** A row after the update's SET clause: the key and the generated columns are kept. */
  function Refresh(r: Row, c: Changes): Row {
    r.(skey := c.skey, lastVisitTime := c.lastVisitTime, sessionKey := c.sessionKey, userInfo := c.userInfo)
  }

  /** `UPDATE user SET skey, last_visit_time, session_key, user_info WHERE open_id = ?` */
  function UpdateByOpenId(t: Table, openId: string, c: Changes): (u: Table)
    ensures |u| == |t|
    ensures forall i :: 0 <= i < |t| && t[i].openId == openId ==> u[i] == Refresh(t[i], c)
    ensures forall i :: 0 <= i < |t| && t[i].openId != openId ==> u[i] == t[i]
  {
    if |t| == 0 then []
    else [if t[0].openId == openId then Refresh(t[0], c) else t[0]] + UpdateByOpenId(t[1..], openId, c)
  }

  /** Row `i` is the earliest row of `t` whose `skey` is `skey`. */
  predicate IsFirstWithSkey(t: Table, skey: string, i: int) {
    0 <= i < |t| && t[i].skey == skey && forall j :: 0 <= j < i ==> t[j].skey != skey
  }

  /** `SELECT * FROM user WHERE skey = ?`, in table order. */
  function SelectBySkey(t: Table, skey: string): (s: Table)
    ensures |s| <= |t|
    ensures forall i :: 0 <= i < |s| ==> s[i].skey == skey && s[i] in t
    ensures forall i :: 0 <= i < |t| && t[i].skey == skey ==> t[i] in s
  {
    if |t| == 0 then []
    else (if t[0].skey == skey then [t[0]] else []) + SelectBySkey(t[1..], skey)
  }

  /** The first selected row is the earliest matching row of the table. */
  lemma {:induction false} SelectFirstIsEarliest(t: Table, skey: string, i: int)
    requires IsFirstWithSkey(t, skey, i)
    ensures |SelectBySkey(t, skey)| > 0 && SelectBySkey(t, skey)[0] == t[i]
  {
    if i > 0 {
      assert IsFirstWithSkey(t[1..], skey, i - 1);
      SelectFirstIsEarliest(t[1..], skey, i - 1);
    }
  }
}

=== FILE: wrappers.dfy ===
/** Option and Result values: an absent header or column is `None`, a thrown error is `Failure`. */
module Wrappers {

  datatype Option<+T> = None | Some(value: T)

  /** The outcome of an operation that may throw; usable with `:-`. */
  datatype Result<+T, +E> = Success(value: T) | Failure(error: E) {

    predicate IsFailure() {
      Failure?
    }

    function PropagateFailure<U>(): Result<U, E>
      requires Failure?
    {
      Failure(error)
    }

    function Extract(): T
      requires Success?
    {
      value
    }
  }
}
